=== FILE: README.md ===
# rust-landlock, modelled in Dafny

A model of two pieces of the `landlock` crate.

1. **The ruleset protocol of `src/lib.rs`.** This covers the `AccessFs`
   bit-set and the `RulesetAttr` builder. It also covers `Ruleset`, which
   owns a Landlock ruleset descriptor and moves through consuming builder
   calls, and the `Drop` that closes that descriptor. The library wraps
   three Landlock system calls, `prctl` and `close`. Here each of them is a
   call across an abstract boundary (module `Syscalls`). Its return value
   and `errno` come from an arbitrary *oracle*, a function from the calls
   issued so far and the new call to a reply. A *kernel record* keeps the
   descriptors handed out and not yet closed, plus a log of every call.
   Rust's moves are explicit. An operation that takes the ruleset by value
   either hands it back in its result or has already issued the `close`
   of its `Drop`.
2. **The profile grammar of `examples/profile.rs`.** These are the nom
   parsers for lines such as `LL_FS_RO="/usr/bin:/etc"`. Each parser is a
   function from a string to `None` or `Some((value, remainder))`. Three nom
   combinators (`tag`, `many0`, `separated_list0`) are modelled
   generically in module `Combinators`, with their guards against parsers
   that read nothing. The other combinators the parsers use (`satisfy`,
   `recognize`, `pair`, `alt`, `value`, `tuple`, `delimited`, `opt` and
   `all_consuming`) are written out inline in the parser that uses them. A path is the sequence of its segments. Each parser
   has a printer for its canonical text, and the round-trip lemmas show
   that parsing printed text gives the value back.

Files:

- `wrappers.dfy`: the `Option` and `Result` types.
- `seqs.dfy`: concatenation facts.
- `access_fs.dfy`: the bit-set, with a set-of-rights reference decoding.
- `syscalls.dfy`: the boundary and the kernel record.
- `landlock.dfy`: the library's operations.
- `lifecycle.dfy`: whole-lifetime properties of client scripts.
- `combinators.dfy`, `profile.dfy`, `profile_roundtrip.dfy`: the grammar.

The model follows the code in these points:

- `add_rule` (src/lib.rs:102-107) treats any non-zero return as an error, not only a negative one.
- `restrict_self` and `prctl_set_no_new_privs` also treat any non-zero return as an error.
- A failed `add_path_beneath_rule` drops the ruleset it consumed, so its descriptor is closed inside the call (src/lib.rs:110-119). The caller is left with no ruleset.

## Model

| member | source | states |
|---|---|---|
| AccessFs.Flag | src/lib.rs:13-25 | each named flag is a valid value naming exactly its own right, so the thirteen flags are distinct single bits |
| AccessFs.Empty | src/lib.rs:67 | `AccessFs::empty()` is valid and names no right |
| AccessFs.Union | src/lib.rs:11-27 | `a \| b` names exactly the rights named by `a` or by `b`, and is valid when both are |
| AccessFs.ContainsIsSubset | src/lib.rs:11-27 | for a valid `b`, `a.contains(b)` holds exactly when the rights of `b` are a subset of the rights of `a` (both directions) |
| AccessFs.FromRightsOfRights | src/lib.rs:11-27 | a valid mask is determined by the rights it names: re-encoding its decoding gives the same mask |
| AccessFs.RightsOfFromRights | src/lib.rs:11-27 | encoding any set of rights gives a valid mask that decodes to the same set |
| Landlock.PrctlSetNoNewPrivs | src/lib.rs:49-54 | issues one `prctl(PR_SET_NO_NEW_PRIVS, 1, 0, 0, 0)`; `Ok` exactly when it returns 0, otherwise the `errno` it left; no descriptor changes |
| Landlock.TypeOf | src/lib.rs:41-47 | a path-beneath rule is given the path-beneath rule-type tag, and only such a rule is; with a single rule variant this is the whole conversion |
| Landlock.NewAttr | src/lib.rs:61-69 | a new builder handles no right |
| Landlock.HandleFs | src/lib.rs:71-74 | the handled set becomes the argument, whatever it was before; Lifecycle.HandleFsLastWins and Lifecycle.HandleFsForgets give the consequences over several calls |
| Landlock.RulesetNew | src/lib.rs:88-100 | issues exactly one create call carrying `handled_fs.bits` and flags 0; a result >= 0 becomes the owned descriptor with no-new-privileges on and is recorded open; a negative result is an error carrying `errno` and opens nothing |
| Landlock.Create | src/lib.rs:76-79 | `create` issues the same single create call with the builder's mask and yields `Ruleset { fd: result, no_new_privs: true }` exactly when the result is >= 0 |
| Landlock.Drop | src/lib.rs:138-144 | dropping issues one `close` of the owned descriptor, which leaves the open set |
| Landlock.AddRuleTo | src/lib.rs:102-107 | issues one add-rule call on the ruleset's own descriptor with the rule's type tag and flags 0; `Ok` exactly when it returns 0; the open set is unchanged |
| Landlock.AddPathBeneathRule | src/lib.rs:110-119 | one add-rule call with the ruleset's descriptor, the path-beneath type, `allowed.bits` and the parent's raw descriptor; on 0 the same ruleset comes back with nothing else issued; otherwise the error carries `errno` and the consumed ruleset's descriptor is closed right after the call |
| Landlock.SetNoNewPrivs | src/lib.rs:121-124 | only the flag changes, to the given value; the descriptor is the same and, as no kernel is involved, no call is issued |
| Landlock.RestrictSelf | src/lib.rs:127-135 | with the flag off no `prctl` is issued; with it on, a failing `prctl` returns its error and `landlock_restrict_self` is never issued; otherwise the result is `Ok` exactly when `landlock_restrict_self` returns 0; on every path the descriptor is closed last |
| Lifecycle.HandleFsLastWins | src/lib.rs:71-74 | after any sequence of `handle_fs` calls the handled set is the last argument, and with none the builder is unchanged |
| Lifecycle.HandleFsForgets | src/lib.rs:71-74 | a right handled by an earlier `handle_fs` but not by the last one is not handled: calls replace, they do not accumulate |
| Lifecycle.CreateWithoutHandleFs | src/lib.rs:76-78 | `create` on a fresh builder passes mask 0 to the create call |
| Lifecycle.FinishClosesOnce | src/lib.rs:127-144 | ending a ruleset by `restrict_self` (any outcome) or by letting it go closes its descriptor exactly once, as the last call, and no other ruleset call uses another descriptor |
| Lifecycle.AddStepClosesOnce | src/lib.rs:110-119 | an add-rule step, failed or not, keeps the close-exactly-once guarantee for the rest of the run |
| Lifecycle.RunStepsClosesOnce | src/lib.rs:110-144 | for any kernel answers, any steps and either ending, a live ruleset's descriptor is closed exactly once, last, and is the only descriptor that leaves the open set |
| Lifecycle.RunClosesOnce | src/lib.rs:88-144 | a whole client run leaves the open set as it found it; a failed create issues nothing more and returns its error; a successful one starts with the create call and closes the new descriptor exactly once, last |
| Combinators.Tag | examples/profile.rs:57 | `tag(t)` succeeds exactly on input starting with `t` and leaves what follows it |
| Combinators.Many0 | examples/profile.rs:50 | `many0` never grows the input, stops only where its parser fails (the parser fails on what is left), and cannot fail when its parser always reads something |
| Combinators.Many0Reads | examples/profile.rs:50 | what `many0` reads is the printed forms of the values it returns, one after the other |
| Combinators.SeparatedList0 | examples/profile.rs:58 | `separated_list0` never grows the input and cannot fail when the separator is non-empty; the list is empty exactly when the first element fails, and then nothing is read; otherwise it stops only where no separator follows or no element follows the separator |
| Combinators.SeparatedList0Ends | examples/profile.rs:58 | after a non-empty list, the last element and what is left stand in every relation that each parse of the element parser establishes between its value and its remainder |
| Combinators.SeparatedList0Reads | examples/profile.rs:58 | what `separated_list0` reads is its elements' printed forms joined by the separator, and every element is one the element parser returned |
| Profile.AlnumChar | examples/profile.rs:49 | `satisfy` reads one character exactly when the first character is an ASCII letter or digit |
| Profile.AlnumRun | examples/profile.rs:50 | `many0` of alphanumerics reads the longest alphanumeric prefix: all read characters are alphanumeric and the next is not |
| Profile.Filename | examples/profile.rs:47-52 | succeeds exactly when the first character is an ASCII letter or digit, and then returns the longest such run as the match |
| Profile.ParsePath | examples/profile.rs:55-60 | succeeds exactly on input starting with `/`; the path's segments are alphanumeric names and the text read is its printed form; what is left never starts with an alphanumeric, and after a segment never with `/` followed by one |
| Profile.ParsePathList | examples/profile.rs:62-64 | never fails; reads the printed forms of the returned paths joined by `:`; returns no path exactly on input not starting with `/` (e.g. empty), and then reads nothing; after a path what is left never starts with `:/`; the last path was read to its end: no alphanumeric follows it, and after a segment no `/` followed by one |
| Profile.ParseEnvVarName | examples/profile.rs:66-70 | the prefix `LL_FS_RO` gives `RO`, `LL_FS_RW` gives `RW`, each with the rest of the input; input starting with neither fails |
| Profile.ParseEnv | examples/profile.rs:72-80 | fails without a variable name; otherwise reads exactly `NAME="list"` and at most one newline (a newline left unread only when none was read), returns only the name and paths, and reads something |
| Profile.EntriesRead | examples/profile.rs:77-83 | what `many0(parse_env)` reads is the returned entries printed one after the other, each with or without its newline |
| Profile.ParseProfile | examples/profile.rs:82-84 | success only with nothing left unread; the input is then exactly the returned entries printed one after the other, each with or without its newline, and all of them are well-formed; empty input gives the empty list |
| ProfileRoundTrip.FilenameRoundTrip | examples/profile.rs:47-52 | an alphanumeric name followed by a non-alphanumeric is read back as exactly that name |
| ProfileRoundTrip.PathRoundTrip | examples/profile.rs:55-60 | `"/" + join(segs, "/")` with non-empty alphanumeric segments parses to exactly those segments, leaving what follows when it does not start with `/` or an alphanumeric (otherwise `filename` would read on) |
| ProfileRoundTrip.RootPath | examples/profile.rs:55-60 | `/` alone is the root path with no segment and nothing left |
| ProfileRoundTrip.PathListRoundTrip | examples/profile.rs:62-64 | a printed `:`-separated list of well-formed paths parses back to the same paths in order, the empty list included, leaving what follows when it does not start with `/`, `:` or an alphanumeric |
| ProfileRoundTrip.TrailingSlash | examples/profile.rs:58-63 | on `/a/` the list is the one path `/a`, and the `/` that starts no segment is left unread |
| ProfileRoundTrip.EntryRoundTrip | examples/profile.rs:72-80 | a printed well-formed entry parses back to the same name and paths, leaving what follows; with its newline always, without it when what follows does not start with a newline (which `opt(tag("\n"))` would take) |
| ProfileRoundTrip.EntriesRoundTrip | examples/profile.rs:77-83 | `many0(parse_env)` reads back well-formed entries printed one after the other, each with or without its newline, in order, stopping at what follows when `parse_env` fails there and, after a last entry without its newline, that text does not start with a newline |
| ProfileRoundTrip.ProfileTextRoundTrip | examples/profile.rs:72-84 | well-formed entries printed one after the other, each with or without its newline (so a last line without one, or entries back to back), parse back to the same entries with nothing left |
| ProfileRoundTrip.ProfileRoundTrip | examples/profile.rs:55-84 | printing well-formed entries as `NAME="p1:p2"` lines and parsing the text gives back the same entries with nothing left |
| ProfileRoundTrip.ParseProfileAccepts | examples/profile.rs:72-84 | `parse_profile` succeeds exactly on the texts made of well-formed entries printed one after the other, each with or without its newline (both directions) |
| ProfileRoundTrip.LastLineWithoutNewline | examples/profile.rs:77 | the one-line profile `LL_FS_RO="/a"` with no final newline parses to the single entry `RO` with path `/a` |

## Left out

- What the kernel enforces. This includes which masks make a call fail (an empty handled mask giving `-ENOMSG`, allowed rights outside the handled ones), inheritance and thread scope. Every reply is an arbitrary oracle answer.
- The `uapi` module: its numeric constants, struct layouts, `size_of_val`, `Rule::as_ptr` and the raw-pointer FFI. The thirteen rights are the bits 0 to 12 of the Linux `landlock.h` header, in the declaration order of src/lib.rs:13-25. `PR_SET_NO_NEW_PRIVS` is 38, from the Linux `prctl.h` header.
- `Error::last_os_error` is an opaque `errno` value, read with the reply and passed through unchanged.
- The `bitflags` internals beyond `empty`, `|`, `contains` and `.bits`. `AccessFs::all()` is left out too; only the test uses it.
- The test `ruleset_root`, which needs a live kernel. Its call chain is the shape of the `Lifecycle` client scripts.
- Syscalls.Fd: `RawFd` is a C `int`, but descriptors are unbounded integers here. The code does no arithmetic on them, so the 32-bit range does not matter.
- Dropping the `parent` argument of `add_path_beneath_rule`. It is taken by value, and what its own `Drop` does depends on its type.
- `main` in examples/profile.rs: the `HOME` lookup, argument parsing, file read and debug output are I/O.
- The `ws` combinator and `peol_comment`. `parse_profile` uses neither: the comment support is commented out at examples/profile.rs:83.
- `PathBuf` semantics. A path is its segment sequence, and the parser's fold over `PathBuf::join` becomes a segment list starting at `/`.
- Landlock.TypeOf: the numeric value of the rule-type tag (`LANDLOCK_RULE_PATH_BENEATH` in the uapi) is not modelled. With one rule variant and one tag, its contract can only say that the two correspond.
- Combinators.Many0: its contract does not say that `many0` fails when its parser succeeds without reading. Combinators.Many0Valid and the round-trip lemmas use the defining body for that case.

=== FILE: access_fs.dfy ===
/** The `AccessFs` bit-set of src/lib.rs: a `u64` mask whose named flags are
    the thirteen filesystem access rights of the Landlock ABI, at bit
    positions 0 to 12 in declaration order (as fixed by
    include/uapi/linux/landlock.h). */
module AccessFs {

  /** One filesystem access right, in the declaration order of the flags. */
  datatype AccessRight =
    | Execute | WriteFile | ReadFile | ReadDir | RemoveDir | RemoveFile
    | MakeChar | MakeDir | MakeReg | MakeSock | MakeFifo | MakeBlock | MakeSym

  /** Every right there is. */
  const AllRights: set<AccessRight> :=
    {Execute, WriteFile, ReadFile, ReadDir, RemoveDir, RemoveFile,
     MakeChar, MakeDir, MakeReg, MakeSock, MakeFifo, MakeBlock, MakeSym}

  /** The mask of all named flags (bits 0 to 12). */
  const KnownBits: bv64 := 0x1FFF

  /** The kernel ABI's single bit for a right. */
  function Bit(a: AccessRight): bv64
  {
    match a
    case Execute => 0x1
    case WriteFile => 0x2
    case ReadFile => 0x4
    case ReadDir => 0x8
    case RemoveDir => 0x10
    case RemoveFile => 0x20
    case MakeChar => 0x40
    case MakeDir => 0x80
    case MakeReg => 0x100
    case MakeSock => 0x200
    case MakeFifo => 0x400
    case MakeBlock => 0x800
    case MakeSym => 0x1000
  }

  /** The flags value; `bits` is the raw mask handed to the kernel. */
  datatype AccessFs = AccessFs(bits: bv64)

  /** A value built only from named flags has no bit outside bits 0 to 12. */
  predicate Valid(a: AccessFs)
  {
    a.bits & !KnownBits == 0
  }

  /** The set of rights a flags value names. */
  function Rights(a: AccessFs): set<AccessRight>
  {
    set r | r in AllRights && Has(a.bits, r)
  }

  /** The mask `x` has the bit of `r` set. */
  predicate Has(x: bv64, r: AccessRight)
  {
    x & Bit(r) != 0
  }

  /** The flags value naming exactly the rights in `s`: the reference
      encoding the bit-set operations are measured against. */
  function FromRights(s: set<AccessRight>): AccessFs
  {
    AccessFs(
      Pick(s, Execute) | Pick(s, WriteFile) | Pick(s, ReadFile) | Pick(s, ReadDir)
      | Pick(s, RemoveDir) | Pick(s, RemoveFile) | Pick(s, MakeChar) | Pick(s, MakeDir)
      | Pick(s, MakeReg) | Pick(s, MakeSock) | Pick(s, MakeFifo) | Pick(s, MakeBlock)
      | Pick(s, MakeSym))
  }

  /** The bit of `r` if `s` holds `r`, else no bit. */
  function Pick(s: set<AccessRight>, r: AccessRight): bv64
  {
    if r in s then Bit(r) else 0
  }

  /** Every right is one of the thirteen. */
  lemma InAllRights(r: AccessRight)
    ensures r in AllRights
  {
    match r
    case Execute =>
    case WriteFile =>
    case ReadFile =>
    case ReadDir =>
    case RemoveDir =>
    case RemoveFile =>
    case MakeChar =>
    case MakeDir =>
    case MakeReg =>
    case MakeSock =>
    case MakeFifo =>
    case MakeBlock =>
    case MakeSym =>
  }

  /** Membership in `Rights(a)` is a test of the right's bit. */
  lemma InRights(a: AccessFs, r: AccessRight)
    ensures r in Rights(a) <==> Has(a.bits, r)
  {
    InAllRights(r);
  }

  /** The named constant for one right, e.g. `AccessFs::READ_FILE`. */
  function Flag(a: AccessRight): (f: AccessFs)
    ensures Valid(f)
    ensures Rights(f) == {a}
  {
    AccessFs(Bit(a))
  }

  /** `AccessFs::empty()`. */
  function Empty(): (e: AccessFs)
    ensures Valid(e)
    ensures Rights(e) == {}
  {
    AccessFs(0)
  }

  /** `a | b`: the union of two flags values. */
  function Union(a: AccessFs, b: AccessFs): (u: AccessFs)
    ensures Rights(u) == Rights(a) + Rights(b)
    ensures Valid(a) && Valid(b) ==> Valid(u)
  {
    UnionRights(a, b);
    AccessFs(a.bits | b.bits)
  }

  /** `a.contains(b)`: every bit of `b` is set in `a`. */
  predicate Contains(a: AccessFs, b: AccessFs)
  {
    a.bits & b.bits == b.bits
  }

  /** A right is named by `a | b` exactly when `a` or `b` names it. */
  lemma UnionBit(x: bv64, y: bv64, r: AccessRight)
    ensures Has(x | y, r) <==> Has(x, r) || Has(y, r)
  {
    var b := Bit(r);
    OrMasked(x, y, b);
    HasMasked(x | y, r);
    HasMasked(x, r);
    HasMasked(y, r);
  }

  lemma HasMasked(x: bv64, r: AccessRight)
    ensures Has(x, r) <==> x & Bit(r) != 0
  {
  }

  lemma OrMasked(x: bv64, y: bv64, b: bv64)
    ensures (x | y) & b != 0 <==> x & b != 0 || y & b != 0
  {
    assert (x | y) & b == (x & b) | (y & b);
  }

  lemma UnionRights(a: AccessFs, b: AccessFs)
    ensures Rights(AccessFs(a.bits | b.bits)) == Rights(a) + Rights(b)
  {
    forall r ensures Has(a.bits | b.bits, r) <==> Has(a.bits, r) || Has(b.bits, r) {
      UnionBit(a.bits, b.bits, r);
    }
  }

  /** Picking `r` from the rights of `a` keeps exactly the bit of `r` in `a`. */
  lemma PickOfRights(a: AccessFs, r: AccessRight)
    ensures Pick(Rights(a), r) == a.bits & Bit(r)
  {
    InRights(a, r);
    match r
    case Execute =>
    case WriteFile =>
    case ReadFile =>
    case ReadDir =>
    case RemoveDir =>
    case RemoveFile =>
    case MakeChar =>
    case MakeDir =>
    case MakeReg =>
    case MakeSock =>
    case MakeFifo =>
    case MakeBlock =>
    case MakeSym =>
  }

  /** A mask with no unknown bit is the union of its thirteen named bits. */
  lemma MaskSplit(x: bv64)
    requires x & !KnownBits == 0
    ensures x == (x & 0x1) | (x & 0x2) | (x & 0x4) | (x & 0x8) | (x & 0x10)
                 | (x & 0x20) | (x & 0x40) | (x & 0x80) | (x & 0x100) | (x & 0x200)
                 | (x & 0x400) | (x & 0x800) | (x & 0x1000)
  {
  }

  /** For a value built from named flags, `contains` is set inclusion of
      the rights named. */
  lemma ContainsIsSubset(a: AccessFs, b: AccessFs)
    requires Valid(b)
    ensures Contains(a, b) <==> Rights(b) <= Rights(a)
  {
    if Contains(a, b) {
      forall r | r in Rights(b) ensures r in Rights(a) {
        InRights(b, r);
        ContainedBit(a.bits, b.bits, r);
        InRights(a, r);
      }
    } else {
      var r := UncontainedRight(a.bits, b.bits);
      InRights(a, r);
      InRights(b, r);
    }
  }

  lemma ContainedBit(x: bv64, y: bv64, r: AccessRight)
    requires x & y == y
    requires Has(y, r)
    ensures Has(x, r)
  {
    var b := Bit(r);
    assert (x & y) & b == x & (y & b);
  }

  /** When `y` has a named bit that `x` lacks, find that right. */
  lemma UncontainedRight(x: bv64, y: bv64) returns (r: AccessRight)
    requires y & !KnownBits == 0
    requires x & y != y
    ensures Has(y, r) && !Has(x, r)
  {
    var d := y & !x;
    assert d != 0 && d & !KnownBits == 0;
    r := SomeRight(d);
    DiffBit(x, y, Bit(r));
  }

  lemma DiffBit(x: bv64, y: bv64, b: bv64)
    requires (y & !x) & b != 0
    ensures y & b != 0 && x & b != b
  {
  }

  /** A nonzero mask with no unknown bit names some right. */
  lemma SomeRight(d: bv64) returns (r: AccessRight)
    requires d != 0 && d & !KnownBits == 0
    ensures d & Bit(r) != 0
  {
    if d & 0x1 != 0 { return Execute; }
    if d & 0x2 != 0 { return WriteFile; }
    if d & 0x4 != 0 { return ReadFile; }
    if d & 0x8 != 0 { return ReadDir; }
    if d & 0x10 != 0 { return RemoveDir; }
    if d & 0x20 != 0 { return RemoveFile; }
    if d & 0x40 != 0 { return MakeChar; }
    if d & 0x80 != 0 { return MakeDir; }
    if d & 0x100 != 0 { return MakeReg; }
    if d & 0x200 != 0 { return MakeSock; }
    if d & 0x400 != 0 { return MakeFifo; }
    if d & 0x800 != 0 { return MakeBlock; }
    MaskSplit(d);
    return MakeSym;
  }

  /** Decoding a valid mask and encoding it again gives back the mask. */
  lemma FromRightsOfRights(a: AccessFs)
    requires Valid(a)
    ensures FromRights(Rights(a)) == a
  {
    PickOfRights(a, Execute); PickOfRights(a, WriteFile); PickOfRights(a, ReadFile);
    PickOfRights(a, ReadDir); PickOfRights(a, RemoveDir); PickOfRights(a, RemoveFile);
    PickOfRights(a, MakeChar); PickOfRights(a, MakeDir); PickOfRights(a, MakeReg);
    PickOfRights(a, MakeSock); PickOfRights(a, MakeFifo); PickOfRights(a, MakeBlock);
    PickOfRights(a, MakeSym);
    MaskSplit(a.bits);
  }

  /** Encoding a set of rights and decoding it again gives back the set. */
  lemma RightsOfFromRights(s: set<AccessRight>)
    ensures Rights(FromRights(s)) == s
    ensures Valid(FromRights(s))
  {
    forall r ensures r in Rights(FromRights(s)) <==> r in s {
      InRights(FromRights(s), r);
      FromRightsBit(s, r);
    }
  }

  lemma FromRightsBit(s: set<AccessRight>, r: AccessRight)
    ensures Has(FromRights(s).bits, r) <==> r in s
  {
    match r
    case Execute =>
    case WriteFile =>
    case ReadFile =>
    case ReadDir =>
    case RemoveDir =>
    case RemoveFile =>
    case MakeChar =>
    case MakeDir =>
    case MakeReg =>
    case MakeSock =>
    case MakeFifo =>
    case MakeBlock =>
    case MakeSym =>
  }
}

=== FILE: combinators.dfy ===
/** The parser combinators of the nom library that examples/profile.rs is
    built from, over complete input: a parser maps the input to `None`
    (a recoverable error) or to `Some((value, remainder))`. */
module Combinators {
  import opened Wrappers

  /** A parser that, when it succeeds, leaves no more input than it was given. */
  ghost predicate Forward<T>(f: string -> Option<(T, string)>)
  {
    forall s :: f(s).Some? ==> |f(s).value.1| <= |s|
  }

  /** A parser that, when it succeeds, reads at least one character. */
  ghost predicate Progress<T>(f: string -> Option<(T, string)>)
  {
    forall s :: f(s).Some? ==> |f(s).value.1| < |s|
  }

  /** `tag(t)`: read `t` exactly. */
  function Tag(t: string, s: string): (r: Option<string>)
    ensures r.Some? <==> t <= s
    ensures r.Some? ==> s == t + r.value
  {
    if t <= s then
      assert s == t + s[|t|..];
      Some(s[|t|..])
    else None
  }

  lemma TagCons(t: string, x: string)
    ensures Tag(t, t + x) == Some(x)
  {
    assert t <= t + x;
    assert (t + x)[|t|..] == x;
  }

  /** `many0(f)`: apply `f` as long as it succeeds. Like nom, it fails when
      `f` succeeds without reading anything, rather than loop forever. */
  function Many0<T>(f: string -> Option<(T, string)>, s: string): (r: Option<(seq<T>, string)>)
    requires Forward(f)
    ensures r.Some? ==> |r.value.1| <= |s|
    ensures r.Some? ==> f(r.value.1).None?
    ensures Progress(f) ==> r.Some?
    decreases |s|
  {
    match f(s)
    case None => Some(([], s))
    case Some((x, rest)) =>
      if |rest| == |s| then None
      else
        var (xs, rest') :- Many0(f, rest);
        Some(([x] + xs, rest'))
  }

  /** One round of `many0`'s loop: an element that reads something, then
      the rest of the run. */
  lemma Many0Step<T>(f: string -> Option<(T, string)>, s: string, x: T, rest: string, xs: seq<T>, rest': string)
    requires Forward(f)
    requires f(s) == Some((x, rest)) && |rest| < |s|
    requires Many0(f, rest) == Some((xs, rest'))
    ensures Many0(f, s) == Some(([x] + xs, rest'))
  {
  }

  /** `many0` after an element: the element read something, and the rest
      of the run follows it. */
  lemma Many0Unstep<T>(f: string -> Option<(T, string)>, s: string, x: T, rest: string)
    requires Forward(f)
    requires f(s) == Some((x, rest))
    requires Many0(f, s).Some?
    ensures |rest| < |s| && Many0(f, rest).Some?
    ensures Many0(f, s).value == ([x] + Many0(f, rest).value.0, Many0(f, rest).value.1)
  {
  }

  /** `separated_list0(tag(sep), f)`: zero or more `f` separated by `sep`.
      It never fails on an element: when the first `f` fails the list is
      empty, and when the `f` after a separator fails the separator is left
      unread. Like nom, it fails when the separator reads nothing. */
  function SeparatedList0<T>(sep: string, f: string -> Option<(T, string)>, s: string)
    : (r: Option<(seq<T>, string)>)
    requires Forward(f)
    ensures r.Some? ==> |r.value.1| <= |s|
    ensures r.Some? ==> (r.value.0 == [] <==> f(s).None?)
    ensures r.Some? && r.value.0 == [] ==> r.value.1 == s
    ensures r.Some? && r.value.0 != [] ==> ListStops(sep, f, r.value.1)
    ensures |sep| > 0 ==> r.Some?
  {
    match f(s)
    case None => Some(([], s))
    case Some((x, rest)) =>
      var (xs, rest') :- SeparatedTail(sep, f, rest);
      Some(([x] + xs, rest'))
  }

  /** Where the loop of `separated_list0` stops: no separator follows, or
      no element follows the separator. */
  predicate ListStops<T>(sep: string, f: string -> Option<(T, string)>, s: string)
  {
    match Tag(sep, s)
    case None => true
    case Some(afterSep) => f(afterSep).None?
  }

  /** The loop of `separated_list0` after its first element. */
  function SeparatedTail<T>(sep: string, f: string -> Option<(T, string)>, s: string)
    : (r: Option<(seq<T>, string)>)
    requires Forward(f)
    ensures r.Some? ==> |r.value.1| <= |s|
    ensures r.Some? ==> ListStops(sep, f, r.value.1)
    ensures r.Some? && r.value.0 == [] ==> r.value.1 == s
    ensures |sep| > 0 ==> r.Some?
    decreases |s|
  {
    match Tag(sep, s)
    case None => Some(([], s))
    case Some(afterSep) =>
      if |afterSep| == |s| then None
      else
        match f(afterSep)
        case None => Some(([], s))
        case Some((x, rest)) =>
          // the separator read something, so the rest of the list cannot fail
          var (xs, rest') := SeparatedTail(sep, f, rest).value;
          Some(([x] + xs, rest'))
  }

  /** One round of `separated_list0`'s loop: a separator that reads
      something, an element, then the rest of the list. */
  lemma SeparatedTailStep<T>(sep: string, f: string -> Option<(T, string)>, s: string, afterSep: string,
                             x: T, rest: string, xs: seq<T>, rest': string)
    requires Forward(f)
    requires Tag(sep, s) == Some(afterSep) && |afterSep| < |s|
    requires f(afterSep) == Some((x, rest))
    requires SeparatedTail(sep, f, rest) == Some((xs, rest'))
    ensures SeparatedTail(sep, f, s) == Some(([x] + xs, rest'))
  {
  }

  /** The first element of `separated_list0`, then the rest of the list. */
  lemma SeparatedListStep<T>(sep: string, f: string -> Option<(T, string)>, s: string,
                             x: T, rest: string, xs: seq<T>, rest': string)
    requires Forward(f)
    requires f(s) == Some((x, rest))
    requires SeparatedTail(sep, f, rest) == Some((xs, rest'))
    ensures SeparatedList0(sep, f, s) == Some(([x] + xs, rest'))
  {
  }

  /** The parts joined with `sep` between each two. */
  function Join(sep: string, parts: seq<string>): string
  {
    if parts == [] then "" else parts[0] + JoinTail(sep, parts[1..])
  }

  /** Each part preceded by `sep`. */
  function JoinTail(sep: string, parts: seq<string>): string
  {
    if parts == [] then "" else sep + parts[0] + JoinTail(sep, parts[1..])
  }

  /** The parts one after the other. */
  function Concat(parts: seq<string>): string
  {
    if parts == [] then "" else parts[0] + Concat(parts[1..])
  }

  /** The printed form of each value. */
  function Print<T>(render: T -> string, xs: seq<T>): (r: seq<string>)
    ensures |r| == |xs|
  {
    if xs == [] then [] else [render(xs[0])] + Print(render, xs[1..])
  }

  /** `f` reads exactly the printed form of what it returns, and what it
      returns is `valid`. */
  ghost predicate PrintsBack<T>(f: string -> Option<(T, string)>, render: T -> string, valid: T -> bool)
  {
    forall t :: f(t).Some? ==> t == render(f(t).value.0) + f(t).value.1 && valid(f(t).value.0)
  }

  /** What `separated_list0` reads is the printed elements joined by the
      separator, and every element it returns is one `f` returned. */
  lemma {:induction false} SeparatedList0Reads<T>(sep: string, f: string -> Option<(T, string)>,
                                                  render: T -> string, valid: T -> bool, s: string)
    requires Forward(f)
    requires PrintsBack(f, render, valid)
    ensures var r := SeparatedList0(sep, f, s);
      r.Some? ==>
        && s == Join(sep, Print(render, r.value.0)) + r.value.1
        && forall i :: 0 <= i < |r.value.0| ==> valid(r.value.0[i])
  {
    var r := SeparatedList0(sep, f, s);
    if f(s).Some? && r.Some? {
      var (x, rest) := f(s).value;
      SeparatedTailReads(sep, f, render, valid, rest);
      var (xs, rest') := SeparatedTail(sep, f, rest).value;
      PrintCons(render, x, xs);
      JoinCons(sep, render(x), Print(render, xs), rest, rest', s);
      ConsValid(x, xs, valid);
    }
  }

  lemma {:induction false} SeparatedTailReads<T>(sep: string, f: string -> Option<(T, string)>,
                                                 render: T -> string, valid: T -> bool, s: string)
    requires Forward(f)
    requires PrintsBack(f, render, valid)
    ensures var r := SeparatedTail(sep, f, s);
      r.Some? ==>
        && s == JoinTail(sep, Print(render, r.value.0)) + r.value.1
        && forall i :: 0 <= i < |r.value.0| ==> valid(r.value.0[i])
    decreases |s|
  {
    var r := SeparatedTail(sep, f, s);
    if r.Some? && Tag(sep, s).Some? {
      var afterSep := Tag(sep, s).value;
      if |afterSep| < |s| && f(afterSep).Some? {
        var (x, rest) := f(afterSep).value;
        SeparatedTailReads(sep, f, render, valid, rest);
        var (xs, rest') := SeparatedTail(sep, f, rest).value;
        PrintCons(render, x, xs);
        JoinTailCons(sep, render(x), Print(render, xs), afterSep, rest, rest', s);
        ConsValid(x, xs, valid);
      }
    }
  }

  lemma PrintCons<T>(render: T -> string, x: T, xs: seq<T>)
    ensures Print(render, [x] + xs) == [render(x)] + Print(render, xs)
  {
    assert ([x] + xs)[1..] == xs;
  }

  lemma JoinCons(sep: string, a: string, parts: seq<string>, rest: string, rest': string, s: string)
    requires s == a + rest
    requires rest == JoinTail(sep, parts) + rest'
    ensures s == Join(sep, [a] + parts) + rest'
  {
    assert ([a] + parts)[1..] == parts;
  }

  lemma JoinTailCons(sep: string, a: string, parts: seq<string>, afterSep: string, rest: string,
                     rest': string, s: string)
    requires s == sep + afterSep
    requires afterSep == a + rest
    requires rest == JoinTail(sep, parts) + rest'
    ensures s == JoinTail(sep, [a] + parts) + rest'
  {
    assert ([a] + parts)[1..] == parts;
  }

  lemma ConsValid<T>(x: T, xs: seq<T>, valid: T -> bool)
    requires valid(x)
    requires forall i :: 0 <= i < |xs| ==> valid(xs[i])
    ensures forall i :: 0 <= i < |[x] + xs| ==> valid(([x] + xs)[i])
  {
    forall i | 0 <= i < |[x] + xs| ensures valid(([x] + xs)[i]) {
      if i > 0 { assert ([x] + xs)[i] == xs[i - 1]; }
    }
  }

  /** Every value `many0` returns is one `f` returned. */
  lemma {:induction false} Many0Valid<T>(f: string -> Option<(T, string)>, valid: T -> bool, s: string)
    requires Forward(f)
    requires forall t :: f(t).Some? ==> valid(f(t).value.0)
    ensures var r := Many0(f, s);
      r.Some? ==> forall i :: 0 <= i < |r.value.0| ==> valid(r.value.0[i])
    decreases |s|
  {
    var r := Many0(f, s);
    if r.Some? && f(s).Some? {
      var (x, rest) := f(s).value;
      Many0Valid(f, valid, rest);
      if |rest| < |s| {
        var (xs, rest') := Many0(f, rest).value;
        assert r.value.0 == [x] + xs;
        ConsValid(x, xs, valid);
      }
    }
  }

  /** What `many0` reads is the printed forms of what it returns, one after
      the other. */
  lemma {:induction false} Many0Reads<T>(f: string -> Option<(T, string)>, render: T -> string,
                                         valid: T -> bool, s: string)
    requires Forward(f)
    requires PrintsBack(f, render, valid)
    ensures var r := Many0(f, s);
      r.Some? ==> s == Concat(Print(render, r.value.0)) + r.value.1
    decreases |s|
  {
    var r := Many0(f, s);
    if r.Some? && f(s).Some? {
      var (x, rest) := f(s).value;
      Many0Reads(f, render, valid, rest);
      var (xs, rest') := Many0(f, rest).value;
      PrintCons(render, x, xs);
      ConcatCons(render(x), Print(render, xs), rest, rest', s);
    }
  }

  lemma ConcatCons(a: string, parts: seq<string>, rest: string, rest': string, s: string)
    requires s == a + rest
    requires rest == Concat(parts) + rest'
    ensures s == Concat([a] + parts) + rest'
  {
    assert ([a] + parts)[1..] == parts;
  }

  /** After a non-empty list, the last element and what is left are a
      pair the element parser itself produced: any relation every parse
      of `f` establishes between its value and its remainder holds of them. */
  lemma {:induction false} SeparatedList0Ends<T>(sep: string, f: string -> Option<(T, string)>,
                                                 after: (T, string) -> bool, s: string)
    requires Forward(f)
    requires forall t :: f(t).Some? ==> after(f(t).value.0, f(t).value.1)
    ensures var r := SeparatedList0(sep, f, s);
      r.Some? && r.value.0 != [] ==> after(r.value.0[|r.value.0| - 1], r.value.1)
  {
    if f(s).Some? {
      var (x, rest) := f(s).value;
      SeparatedTailEnds(sep, f, after, x, rest);
    }
  }

  /** The loop of `separated_list0` keeps the relation between the last
      element read, `x` before the loop, and what is left. */
  lemma {:induction false} SeparatedTailEnds<T>(sep: string, f: string -> Option<(T, string)>,
                                                after: (T, string) -> bool, x: T, s: string)
    requires Forward(f)
    requires forall t :: f(t).Some? ==> after(f(t).value.0, f(t).value.1)
    requires after(x, s)
    ensures var r := SeparatedTail(sep, f, s);
      r.Some? ==> after(if r.value.0 == [] then x else r.value.0[|r.value.0| - 1], r.value.1)
    decreases |s|
  {
    if Tag(sep, s).Some? {
      var afterSep := Tag(sep, s).value;
      if |afterSep| < |s| && f(afterSep).Some? {
        var (y, rest) := f(afterSep).value;
        SeparatedTailEnds(sep, f, after, y, rest);
      }
    }
  }
}

=== FILE: landlock.dfy ===
/** The ruleset protocol of src/lib.rs: the `RulesetAttr` builder, the
    `Ruleset` owning a kernel descriptor, its consuming builder calls and the
    `Drop` that closes the descriptor, all over the oracle-driven kernel of
    module Syscalls. Rust's moves are explicit here: an operation that takes
    `self` by value either hands the ruleset back in its result or has
    already issued the `close` of its `Drop`. */
module Landlock {
  import opened Wrappers
  import opened AccessFs
  import opened Syscalls

  /** A grant rule; `PathBeneath` is the only variant. */
  datatype Rule = PathBeneath(attr: PathBeneathAttr)

  /** The rule-type tag the kernel is given for a rule (the `Into` impl). */
  function TypeOf(rule: Rule): (t: RuleType)
    ensures rule.PathBeneath? <==> t == PathBeneathType
  {
    match rule
    case PathBeneath(_) => PathBeneathType
  }

  /** The `prctl` call `prctl_set_no_new_privs` issues. */
  const SetNoNewPrivsCall: Call := Prctl(PR_SET_NO_NEW_PRIVS, 1, 0, 0, 0)

  /** `prctl_set_no_new_privs`: `Ok` exactly when `prctl` returns 0,
      otherwise the `errno` it left. */
  function PrctlSetNoNewPrivs(k: Kernel, oracle: Oracle): (r: (Result<(), Error>, Kernel))
    ensures r.1.log == k.log + [SetNoNewPrivsCall]
    ensures r.1.open == k.open
    ensures r.0.Ok? <==> oracle(k.log, SetNoNewPrivsCall).ret == 0
    ensures r.0.Err? ==> r.0.error == OsError(oracle(k.log, SetNoNewPrivsCall).errno)
  {
    var (reply, k1) := Issue(k, SetNoNewPrivsCall, oracle);
    if reply.ret == 0 then (Ok(()), k1) else (Err(OsError(reply.errno)), k1)
  }

  /** The builder: the access rights the ruleset will handle. */
  datatype RulesetAttr = RulesetAttr(handledFs: AccessFs)

  /** `RulesetAttr::new()`: no right is handled yet. */
  function NewAttr(): (a: RulesetAttr)
    ensures Valid(a.handledFs)
    ensures Rights(a.handledFs) == {}
  {
    RulesetAttr(Empty())
  }

  /** `handle_fs`: the handled set becomes `access`, whatever it was. */
  function HandleFs(attr: RulesetAttr, access: AccessFs): (a: RulesetAttr)
    ensures a.handledFs == access
  {
    RulesetAttr(access)
  }

  /** A live ruleset: the descriptor it owns and whether `restrict_self`
      will first set no-new-privileges. */
  datatype Ruleset = Ruleset(fd: Fd, noNewPrivs: bool)

  /** The creation call for an attribute: its handled mask, flags 0. */
  function CreateCall(attr: RulesetAttr): Call
  {
    CreateRuleset(attr.handledFs.bits, 0)
  }

  /** `Ruleset::new`: one `landlock_create_ruleset` call; a non-negative
      result becomes the owned descriptor, with no-new-privileges on. */
  function RulesetNew(attr: RulesetAttr, k: Kernel, oracle: Oracle): (r: (Result<Ruleset, Error>, Kernel))
    ensures r.1.log == k.log + [CreateRuleset(attr.handledFs.bits, 0)]
    ensures var reply := oracle(k.log, CreateCall(attr));
      && (r.0.Ok? <==> reply.ret >= 0)
      && (r.0.Ok? ==> r.0.value == Ruleset(reply.ret, true) && r.1.open == k.open + multiset{reply.ret})
      && (r.0.Err? ==> r.0.error == OsError(reply.errno) && r.1.open == k.open)
  {
    var (reply, k1) := Issue(k, CreateCall(attr), oracle);
    if reply.ret >= 0 then (Ok(Ruleset(reply.ret, true)), k1)
    else (Err(OsError(reply.errno)), k1)
  }

  /** `RulesetAttr::create`: `Ruleset::new` on the builder. */
  function Create(attr: RulesetAttr, k: Kernel, oracle: Oracle): (r: (Result<Ruleset, Error>, Kernel))
    ensures r.1.log == k.log + [CreateRuleset(attr.handledFs.bits, 0)]
    ensures var reply := oracle(k.log, CreateCall(attr));
      && (r.0.Ok? <==> reply.ret >= 0)
      && (r.0.Ok? ==> r.0.value == Ruleset(reply.ret, true))
      && (r.0.Err? ==> r.0.error == OsError(reply.errno))
  {
    RulesetNew(attr, k, oracle)
  }

  /** `Drop for Ruleset`: close the owned descriptor; the result of `close`
      is ignored. */
  function Drop(rs: Ruleset, k: Kernel, oracle: Oracle): (k': Kernel)
    ensures k'.log == k.log + [Close(rs.fd)]
    ensures k'.open == k.open - multiset{rs.fd}
  {
    Issue(k, Close(rs.fd), oracle).1
  }

  /** The `landlock_add_rule` call `add_rule` issues for `rule`. */
  function AddRuleCall(rs: Ruleset, rule: Rule): Call
  {
    AddRule(rs.fd, TypeOf(rule), rule.attr, 0)
  }

  /** `add_rule` (takes `&mut self`, so nothing is dropped): `Ok` exactly
      when the call returns 0. */
  function AddRuleTo(rs: Ruleset, rule: Rule, k: Kernel, oracle: Oracle): (r: (Result<(), Error>, Kernel))
    ensures r.1 == Kernel(k.open, k.log + [AddRuleCall(rs, rule)])
    ensures r.0.Ok? <==> oracle(k.log, AddRuleCall(rs, rule)).ret == 0
    ensures r.0.Err? ==> r.0.error == OsError(oracle(k.log, AddRuleCall(rs, rule)).errno)
  {
    var (reply, k1) := Issue(k, AddRuleCall(rs, rule), oracle);
    if reply.ret == 0 then (Ok(()), k1) else (Err(OsError(reply.errno)), k1)
  }

  /** The rule `add_path_beneath_rule` builds. */
  function PathBeneathRule(parentFd: Fd, allowed: AccessFs): Rule
  {
    PathBeneath(PathBeneathAttr(allowed.bits, parentFd))
  }

  /** `add_path_beneath_rule` takes the ruleset by value. On success the
      same ruleset comes back; on failure the `?` returns the error and the
      ruleset is dropped inside the call, closing its descriptor. */
  function AddPathBeneathRule(rs: Ruleset, parentFd: Fd, allowed: AccessFs, k: Kernel, oracle: Oracle)
    : (r: (Result<Ruleset, Error>, Kernel))
    ensures var c := AddRule(rs.fd, PathBeneathType, PathBeneathAttr(allowed.bits, parentFd), 0);
      var reply := oracle(k.log, c);
      && (r.0.Ok? <==> reply.ret == 0)
      && (r.0.Ok? ==> r.0.value == rs && r.1 == Kernel(k.open, k.log + [c]))
      && (r.0.Err? ==>
            r.0.error == OsError(reply.errno)
            && r.1 == Kernel(k.open - multiset{rs.fd}, k.log + [c, Close(rs.fd)]))
  {
    var (res, k1) := AddRuleTo(rs, PathBeneathRule(parentFd, allowed), k, oracle);
    if res.Err? then (Err(res.error), Drop(rs, k1, oracle)) else (Ok(rs), k1)
  }

  /** `set_no_new_privs`: only the flag changes; no call is issued, since
      the kernel is not an argument. */
  function SetNoNewPrivs(rs: Ruleset, flag: bool): (r: Ruleset)
    ensures r.fd == rs.fd
    ensures r.noNewPrivs == flag
  {
    rs.(noNewPrivs := flag)
  }

  /** `restrict_self` consumes the ruleset: `prctl` first when the flag is
      set, and a `prctl` failure is returned before `landlock_restrict_self`
      is reached; on every path the ruleset is dropped last. */
  function RestrictSelf(rs: Ruleset, k: Kernel, oracle: Oracle): (r: (Result<(), Error>, Kernel))
    ensures r.1.open == k.open - multiset{rs.fd}
    ensures !rs.noNewPrivs ==>
      var c := Syscalls.RestrictSelf(rs.fd, 0);
      var reply := oracle(k.log, c);
      && r.1.log == k.log + [c, Close(rs.fd)]
      && (r.0.Ok? <==> reply.ret == 0)
      && (r.0.Err? ==> r.0.error == OsError(reply.errno))
    ensures rs.noNewPrivs && oracle(k.log, SetNoNewPrivsCall).ret != 0 ==>
      && r.1.log == k.log + [SetNoNewPrivsCall, Close(rs.fd)]
      && r.0 == Err(OsError(oracle(k.log, SetNoNewPrivsCall).errno))
    ensures rs.noNewPrivs && oracle(k.log, SetNoNewPrivsCall).ret == 0 ==>
      var c := Syscalls.RestrictSelf(rs.fd, 0);
      var reply := oracle(k.log + [SetNoNewPrivsCall], c);
      && r.1.log == k.log + [SetNoNewPrivsCall, c, Close(rs.fd)]
      && (r.0.Ok? <==> reply.ret == 0)
      && (r.0.Err? ==> r.0.error == OsError(reply.errno))
  {
    var (prctl, k1) := if rs.noNewPrivs then PrctlSetNoNewPrivs(k, oracle) else (Ok(()), k);
    if prctl.Err? then
      (Err(prctl.error), Drop(rs, k1, oracle))
    else
      var (reply, k2) := Issue(k1, Syscalls.RestrictSelf(rs.fd, 0), oracle);
      var res := if reply.ret == 0 then Ok(()) else Err(OsError(reply.errno));
      (res, Drop(rs, k2, oracle))
  }
}

=== FILE: lifecycle.dfy ===
/** Whole-lifetime properties of the ruleset protocol of src/lib.rs: the
    builder's replace semantics, and the guarantee that the descriptor of
    every ruleset is closed exactly once, as the last call, whichever path
    ends the ruleset's life. A client is a script run the way the Rust
    `?`-chain runs it (as in the crate's own test, src/lib.rs:151-159). */
module Lifecycle {
  import opened Wrappers
  import opened AccessFs
  import opened Syscalls
  import opened Landlock
  import opened Seqs

  /** Apply `handle_fs` once per element of `calls`, in order. */
  function HandleAll(attr: RulesetAttr, calls: seq<AccessFs>): RulesetAttr
    decreases |calls|
  {
    if calls == [] then attr else HandleAll(HandleFs(attr, calls[0]), calls[1..])
  }

  /** Repeated `handle_fs` calls do not accumulate: only the last one is
      remembered, and with none the builder is unchanged. */
  lemma {:induction false} HandleFsLastWins(attr: RulesetAttr, calls: seq<AccessFs>)
    ensures calls == [] ==> HandleAll(attr, calls) == attr
    ensures calls != [] ==> HandleAll(attr, calls).handledFs == calls[|calls| - 1]
    decreases |calls|
  {
    if calls != [] && calls[1..] != [] {
      HandleFsLastWins(HandleFs(attr, calls[0]), calls[1..]);
    }
  }

  /** In particular, a right declared by an earlier call and not by the
      last one is no longer handled. */
  lemma HandleFsForgets(attr: RulesetAttr, first: AccessFs, last: AccessFs, r: AccessRight)
    requires r in Rights(first) && r !in Rights(last)
    ensures r !in Rights(HandleAll(attr, [first, last]).handledFs)
  {
    HandleFsLastWins(attr, [first, last]);
  }

  /** Creating without any `handle_fs` call hands the kernel mask 0. */
  lemma CreateWithoutHandleFs(k: Kernel, oracle: Oracle)
    ensures Create(NewAttr(), k, oracle).1.log == k.log + [CreateRuleset(0, 0)]
  {
  }

  /** What a client does with a live ruleset. */
  datatype Step =
    | AddPathBeneath(parentFd: Fd, allowed: AccessFs)
    | SetFlag(noNewPrivs: bool)

  /** How the ruleset's life ends when no step failed. */
  datatype Finish = Restrict | Abandon

  /** `RulesetAttr::new().handle_fs(handled).create()?`, then the steps, each
      with `?`, then `restrict_self()` or letting the value go. */
  datatype Script = Script(handled: AccessFs, steps: seq<Step>, finish: Finish)

  function Run(script: Script, k: Kernel, oracle: Oracle): (Result<(), Error>, Kernel)
  {
    var attr := HandleFs(NewAttr(), script.handled);
    var (created, k1) := Create(attr, k, oracle);
    if created.Err? then (Err(created.error), k1)
    else RunSteps(created.value, script.steps, script.finish, k1, oracle)
  }

  function RunSteps(rs: Ruleset, steps: seq<Step>, finish: Finish, k: Kernel, oracle: Oracle)
    : (Result<(), Error>, Kernel)
    decreases |steps|
  {
    if steps == [] then
      match finish
      case Restrict => Landlock.RestrictSelf(rs, k, oracle)
      case Abandon => (Ok(()), Drop(rs, k, oracle))
    else
      match steps[0]
      case SetFlag(b) => RunSteps(SetNoNewPrivs(rs, b), steps[1..], finish, k, oracle)
      case AddPathBeneath(parent, allowed) =>
        var (added, k1) := AddPathBeneathRule(rs, parent, allowed, k, oracle);
        if added.Err? then (Err(added.error), k1)
        else RunSteps(added.value, steps[1..], finish, k1, oracle)
  }

  /** Every ruleset call in `calls` goes to descriptor `fd`. */
  predicate OnlyFd(calls: seq<Call>, fd: Fd)
  {
    calls == [] || (UsesOnly(calls[0], fd) && OnlyFd(calls[1..], fd))
  }

  /** A ruleset call that names `fd`, or a call that names no ruleset. */
  predicate UsesOnly(c: Call, fd: Fd)
  {
    (c.AddRule? ==> c.rulesetFd == fd) && (c.RestrictSelf? ==> c.rulesetFd == fd)
  }

  /** From `before` to `after` the log only grew; among the new calls every
      ruleset call used `fd`, exactly one `close` was issued, it closed
      `fd`, and it was the last call. */
  predicate ClosedOnce(before: Kernel, after: Kernel, fd: Fd)
  {
    && |before.log| < |after.log|
    && after.log[..|before.log|] == before.log
    && OnlyFd(after.log[|before.log|..], fd)
    && Closes(after.log[|before.log|..]) == [fd]
    && after.log[|after.log| - 1] == Close(fd)
  }

  /** A run whose new calls are `tail` is `ClosedOnce` when `tail` is. */
  lemma ClosedOnceOf(k: Kernel, k': Kernel, tail: seq<Call>, fd: Fd)
    requires k'.log == k.log + tail
    requires tail != [] && tail[|tail| - 1] == Close(fd)
    requires Closes(tail) == [fd]
    requires OnlyFd(tail, fd)
    ensures ClosedOnce(k, k', fd)
  {
    assert k'.log[..|k.log|] == k.log;
    assert k'.log[|k.log|..] == tail;
  }

  /** Calls that close nothing and use only `fd`, then the close of `fd`. */
  lemma {:induction false} ClosesLast(calls: seq<Call>, fd: Fd)
    requires forall i :: 0 <= i < |calls| ==> !calls[i].Close? && UsesOnly(calls[i], fd)
    ensures Closes(calls + [Close(fd)]) == [fd]
    ensures OnlyFd(calls + [Close(fd)], fd)
    decreases |calls|
  {
    if calls == [] {
      assert calls + [Close(fd)] == [Close(fd)];
      assert Closes([Close(fd)]) == [fd] + Closes([]);
      assert OnlyFd([Close(fd)], fd) by {
        assert [Close(fd)][1..] == [];
      }
    } else {
      assert (calls + [Close(fd)])[1..] == calls[1..] + [Close(fd)];
      ClosesLast(calls[1..], fd);
    }
  }

  /** Extending a `ClosedOnce` run by calls in front keeps it one, when
      those calls close nothing and use only `fd`. */
  lemma ClosedOnceExtend(k0: Kernel, k2: Kernel, fd: Fd, calls: seq<Call>, tail: seq<Call>)
    requires k2.log == (k0.log + calls) + tail
    requires Closes(calls) == [] && OnlyFd(calls, fd)
    requires tail != [] && tail[|tail| - 1] == Close(fd)
    requires Closes(tail) == [fd] && OnlyFd(tail, fd)
    ensures ClosedOnce(k0, k2, fd)
  {
    var all := calls + tail;
    assert k2.log == k0.log + all by {
      Assoc(k0.log, calls, tail);
    }
    assert all[|all| - 1] == Close(fd) by {
      assert all[|all| - 1] == tail[|tail| - 1];
    }
    assert Closes(all) == [fd] by {
      ClosesAppend(calls, tail);
    }
    assert OnlyFd(all, fd) by {
      OnlyFdAppend(calls, tail, fd);
    }
    ClosedOnceOf(k0, k2, all, fd);
  }

  /** The new calls of a `ClosedOnce` run, as a suffix. */
  lemma ClosedOnceTail(k: Kernel, k': Kernel, fd: Fd)
    requires ClosedOnce(k, k', fd)
    ensures var tail := k'.log[|k.log|..];
      && k'.log == k.log + tail
      && tail != [] && tail[|tail| - 1] == Close(fd)
      && Closes(tail) == [fd]
      && OnlyFd(tail, fd)
  {
  }

  lemma {:induction false} OnlyFdAppend(a: seq<Call>, b: seq<Call>, fd: Fd)
    requires OnlyFd(a, fd) && OnlyFd(b, fd)
    ensures OnlyFd(a + b, fd)
    decreases |a|
  {
    if a == [] {
      assert a + b == b;
    } else {
      assert (a + b)[1..] == a[1..] + b;
      OnlyFdAppend(a[1..], b, fd);
    }
  }

  /** Ending a ruleset's life, by `restrict_self` or by letting it go,
      closes its descriptor once, last. */
  lemma FinishClosesOnce(rs: Ruleset, finish: Finish, k: Kernel, oracle: Oracle)
    ensures ClosedOnce(k, RunSteps(rs, [], finish, k, oracle).1, rs.fd)
    ensures RunSteps(rs, [], finish, k, oracle).1.open == k.open - multiset{rs.fd}
  {
    var k' := RunSteps(rs, [], finish, k, oracle).1;
    var restrict := Syscalls.RestrictSelf(rs.fd, 0);
    var calls: seq<Call> :=
      match finish
      case Abandon => []
      case Restrict =>
        if !rs.noNewPrivs then [restrict]
        else if oracle(k.log, SetNoNewPrivsCall).ret != 0 then [SetNoNewPrivsCall]
        else [SetNoNewPrivsCall, restrict];
    assert k'.log == k.log + (calls + [Close(rs.fd)]);
    ClosesLast(calls, rs.fd);
    ClosedOnceOf(k, k', calls + [Close(rs.fd)], rs.fd);
  }

  /** Whatever the kernel answers, a live ruleset run through any steps
      and either finish is closed exactly once, as the last call, and the
      descriptor table loses exactly its descriptor. */
  lemma {:induction false} RunStepsClosesOnce(rs: Ruleset, steps: seq<Step>, finish: Finish, k: Kernel, oracle: Oracle)
    ensures ClosedOnce(k, RunSteps(rs, steps, finish, k, oracle).1, rs.fd)
    ensures RunSteps(rs, steps, finish, k, oracle).1.open == k.open - multiset{rs.fd}
    decreases |steps|
  {
    if steps == [] {
      FinishClosesOnce(rs, finish, k, oracle);
    } else {
      match steps[0]
      case SetFlag(b) =>
        RunStepsClosesOnce(SetNoNewPrivs(rs, b), steps[1..], finish, k, oracle);
      case AddPathBeneath(parent, allowed) =>
        AddStepClosesOnce(rs, parent, allowed, steps, finish, k, oracle);
    }
  }

  /** The step case of `RunStepsClosesOnce` for one added rule. */
  lemma {:induction false} AddStepClosesOnce(rs: Ruleset, parent: Fd, allowed: AccessFs, steps: seq<Step>,
                                             finish: Finish, k: Kernel, oracle: Oracle)
    requires steps != [] && steps[0] == AddPathBeneath(parent, allowed)
    ensures ClosedOnce(k, RunSteps(rs, steps, finish, k, oracle).1, rs.fd)
    ensures RunSteps(rs, steps, finish, k, oracle).1.open == k.open - multiset{rs.fd}
    decreases |steps|, 0
  {
    var k' := RunSteps(rs, steps, finish, k, oracle).1;
    var (added, k1) := AddPathBeneathRule(rs, parent, allowed, k, oracle);
    var c := AddRule(rs.fd, PathBeneathType, PathBeneathAttr(allowed.bits, parent), 0);
    if added.Err? {
      assert k'.log == k.log + ([c] + [Close(rs.fd)]);
      ClosesLast([c], rs.fd);
      ClosedOnceOf(k, k', [c] + [Close(rs.fd)], rs.fd);
    } else {
      RunStepsClosesOnce(rs, steps[1..], finish, k1, oracle);
      assert Closes([c]) == [] by {
        assert Closes([c]) == Closes([c][1..]);
      }
      ClosedOnceTail(k1, k', rs.fd);
      ClosedOnceExtend(k, k', rs.fd, [c], k'.log[|k1.log|..]);
    }
  }

  /** The lifetime guarantee for a whole client: if creation fails no
      ruleset exists and nothing is closed; if it succeeds with descriptor
      `fd`, that descriptor is closed exactly once, last, whichever way the
      run ends. Either way the descriptor table ends as it began. */
  lemma RunClosesOnce(script: Script, k: Kernel, oracle: Oracle)
    ensures var c := CreateRuleset(script.handled.bits, 0);
      var reply := oracle(k.log, c);
      var (res, k') := Run(script, k, oracle);
      && k'.open == k.open
      && (reply.ret < 0 ==> res == Err(OsError(reply.errno)) && k'.log == k.log + [c])
      && (reply.ret >= 0 ==> ClosedOnce(k, k', reply.ret) && k'.log[|k.log|] == c)
  {
    var c := CreateRuleset(script.handled.bits, 0);
    var attr := HandleFs(NewAttr(), script.handled);
    var (created, k1) := Create(attr, k, oracle);
    if created.Ok? {
      RunStepsClosesOnce(created.value, script.steps, script.finish, k1, oracle);
      var k' := Run(script, k, oracle).1;
      assert Closes([c]) == [] by {
        assert Closes([c]) == Closes([c][1..]);
      }
      ClosedOnceTail(k1, k', created.value.fd);
      ClosedOnceExtend(k, k', created.value.fd, [c], k'.log[|k1.log|..]);
    }
  }
}

=== FILE: profile.dfy ===
/** The profile grammar of examples/profile.rs: lines `NAME="/a/b:/c"`
    where NAME is `LL_FS_RO` or `LL_FS_RW` and the value is a
    `:`-separated list of absolute paths made of ASCII-alphanumeric
    segments. Each parser maps its input to `None` or to
    `Some((value, remainder))`; each printer gives the canonical text the
    matching parser reads back. */
module Profile {
  import opened Wrappers
  import opened Combinators
  import opened Seqs

  /** The characters `filename` accepts: `0-9`, `A-Z`, `a-z`. */
  predicate IsAlnum(c: char)
  {
    '0' <= c <= '9' || 'A' <= c <= 'Z' || 'a' <= c <= 'z'
  }

  /** A path segment: a non-empty run of ASCII letters and digits. */
  predicate IsName(n: string)
  {
    |n| > 0 && forall i :: 0 <= i < |n| ==> IsAlnum(n[i])
  }

  /** Nothing alphanumeric follows. */
  predicate EndsName(rest: string)
  {
    rest == [] || !IsAlnum(rest[0])
  }

  /** `satisfy` with the alphanumeric test: read one such character. */
  function AlnumChar(s: string): (r: Option<(char, string)>)
    ensures r.Some? <==> |s| > 0 && IsAlnum(s[0])
    ensures r.Some? ==> r.value.0 == s[0] && r.value.1 == s[1..]
  {
    if |s| > 0 && IsAlnum(s[0]) then
      Some((s[0], s[1..]))
    else None
  }

  lemma AlnumCharForward()
    ensures Forward(AlnumChar) && Progress(AlnumChar)
  {
  }

  /** `many0(satisfy(..))` reads the longest alphanumeric prefix. */
  lemma {:induction false} AlnumRun(s: string)
    ensures Many0(AlnumChar, s).Some?
    ensures var (cs, rest) := Many0(AlnumChar, s).value;
      && s == cs + rest
      && (forall i :: 0 <= i < |cs| ==> IsAlnum(cs[i]))
      && EndsName(rest)
    decreases |s|
  {
    AlnumCharForward();
    if |s| > 0 && IsAlnum(s[0]) {
      AlnumRun(s[1..]);
      var (cs, rest) := Many0(AlnumChar, s[1..]).value;
      assert Many0(AlnumChar, s) == Some(([s[0]] + cs, rest));
      assert s == [s[0]] + s[1..];
      ConsAlnum(s[0], cs);
    } else {
      assert Many0(AlnumChar, s) == Some(([], s));
    }
  }

  lemma ConsAlnum(c: char, cs: string)
    requires IsAlnum(c)
    requires forall i :: 0 <= i < |cs| ==> IsAlnum(cs[i])
    ensures forall i :: 0 <= i < |[c] + cs| ==> IsAlnum(([c] + cs)[i])
  {
    forall i | 0 <= i < |[c] + cs| ensures IsAlnum(([c] + cs)[i]) {
      if i > 0 { assert ([c] + cs)[i] == cs[i - 1]; }
    }
  }

  /** `filename`: `recognize` of one alphanumeric character followed by
      `many0` of them, so the longest alphanumeric prefix, which must not
      be empty. */
  function Filename(s: string): (r: Option<(string, string)>)
    ensures r.Some? <==> |s| > 0 && IsAlnum(s[0])
    ensures r.Some? ==> s == r.value.0 + r.value.1 && IsName(r.value.0) && EndsName(r.value.1)
  {
    var (_, afterFirst) :- AlnumChar(s);
    AlnumCharForward();
    AlnumRun(afterFirst);
    // `satisfy` always reads one character, so `many0` cannot fail here
    var (_, rest) := Many0(AlnumChar, afterFirst).value;
    var name := s[..|s| - |rest|];
    assert s == [s[0]] + afterFirst;
    assert s == name + rest;
    assert forall i :: 1 <= i < |name| ==> name[i] == afterFirst[i - 1];
    Some((name, rest))
  }

  /** An absolute path, as the sequence of its segments below `/`. */
  datatype Path = Path(segments: seq<string>)

  /** Every segment is a non-empty alphanumeric name. */
  predicate WellFormed(p: Path)
  {
    forall i :: 0 <= i < |p.segments| ==> IsName(p.segments[i])
  }

  /** `/` followed by the segments joined with `/`. */
  function PrintPath(p: Path): string
  {
    "/" + Join("/", p.segments)
  }

  /** Exactly the text of a well-formed segment comes back from `filename`. */
  lemma FilenamePrintsBack()
    ensures PrintsBack(Filename, (n: string) => n, IsName)
  {
  }

  /** `parse_path`: a `/`, then segments separated by `/`. A `/` followed by
      no segment is the root path. */
  function ParsePath(s: string): (r: Option<(Path, string)>)
    ensures r.Some? <==> |s| > 0 && s[0] == '/'
    ensures r.Some? ==> WellFormed(r.value.0) && s == PrintPath(r.value.0) + r.value.1
    ensures r.Some? ==> EndsName(r.value.1)
    ensures r.Some? && r.value.0.segments != [] ==> !StartsWithSegment(r.value.1)
  {
    var afterSlash :- Tag("/", s);
    FilenamePrintsBack();
    SeparatedList0Reads("/", Filename, (n: string) => n, IsName, afterSlash);
    SeparatedList0Ends("/", Filename, (_: string, t: string) => EndsName(t), afterSlash);
    var (segments, rest) := SeparatedList0("/", Filename, afterSlash).value;
    PrintIdentity(segments);
    Some((Path(segments), rest))
  }

  /** A further `/`-separated segment follows. */
  predicate StartsWithSegment(s: string)
  {
    |s| > 1 && s[0] == '/' && IsAlnum(s[1])
  }

  lemma {:induction false} PrintIdentity(xs: seq<string>)
    ensures Print((n: string) => n, xs) == xs
  {
    if xs != [] {
      PrintIdentity(xs[1..]);
    }
  }

  /** `p` was read to its end: no alphanumeric follows, and after a segment
      no `/` followed by one. */
  predicate PathStops(p: Path, rest: string)
  {
    EndsName(rest) && (p.segments != [] ==> !StartsWithSegment(rest))
  }

  /** The paths joined with `:`. */
  function PrintPathList(ps: seq<Path>): string
  {
    Join(":", Print(PrintPath, ps))
  }

  lemma ParsePathPrintsBack()
    ensures PrintsBack(ParsePath, PrintPath, WellFormed)
  {
  }

  /** `parse_path_list`: paths separated by `:`. It never fails; input that
      does not start with `/` gives the empty list and is left unread. */
  function ParsePathList(s: string): (r: Option<(seq<Path>, string)>)
    ensures r.Some?
    ensures s == PrintPathList(r.value.0) + r.value.1
    ensures forall i :: 0 <= i < |r.value.0| ==> WellFormed(r.value.0[i])
    ensures (s == [] || s[0] != '/') ==> r.value == ([], s)
    ensures r.value.0 == [] <==> (s == [] || s[0] != '/')
    ensures r.value.0 != [] ==> !(|r.value.1| > 1 && r.value.1[0] == ':' && r.value.1[1] == '/')
    ensures r.value.0 != [] ==> PathStops(r.value.0[|r.value.0| - 1], r.value.1)
  {
    ParsePathPrintsBack();
    SeparatedList0Reads(":", ParsePath, PrintPath, WellFormed, s);
    SeparatedList0Ends(":", ParsePath, PathStops, s);
    SeparatedList0(":", ParsePath, s)
  }

  /** Which access the listed paths are granted. */
  datatype EnvVar = RO | RW

  const ENV_FS_RO_NAME: string := "LL_FS_RO"
  const ENV_FS_RW_NAME: string := "LL_FS_RW"

  /** The variable name printed for an `EnvVar`. */
  function VarName(v: EnvVar): string
  {
    match v
    case RO => ENV_FS_RO_NAME
    case RW => ENV_FS_RW_NAME
  }

  /** `parse_env_var_name`: `LL_FS_RO` gives `RO`, else `LL_FS_RW` gives `RW`. */
  function ParseEnvVarName(s: string): (r: Option<(EnvVar, string)>)
    ensures ENV_FS_RO_NAME <= s ==> r == Some((RO, s[|ENV_FS_RO_NAME|..]))
    ensures ENV_FS_RW_NAME <= s ==> r == Some((RW, s[|ENV_FS_RW_NAME|..]))
    ensures !(ENV_FS_RO_NAME <= s) && !(ENV_FS_RW_NAME <= s) ==> r.None?
    ensures r.Some? ==> s == VarName(r.value.0) + r.value.1
  {
    assert ENV_FS_RO_NAME[7] != ENV_FS_RW_NAME[7];
    match Tag(ENV_FS_RO_NAME, s)
    case Some(rest) => Some((RO, rest))
    case None =>
      match Tag(ENV_FS_RW_NAME, s)
      case Some(rest) => Some((RW, rest))
      case None => None
  }

  /** One profile entry: the variable and its paths. */
  type Entry = (EnvVar, seq<Path>)

  /** `NAME="p1:p2"`, followed by a newline when `newline` holds. */
  function PrintEntry(e: Entry, newline: bool): string
  {
    VarName(e.0) + "=\"" + PrintPathList(e.1) + "\"" + (if newline then "\n" else "")
  }

  predicate StartsWithNewline(s: string)
  {
    |s| > 0 && s[0] == '\n'
  }

  /** Every path of the entry is well-formed. */
  predicate EntryWellFormed(e: Entry)
  {
    forall i :: 0 <= i < |e.1| ==> WellFormed(e.1[i])
  }

  /** `parse_env`: a name, `=`, a path list between double quotes, then at
      most one newline. The `=`, the quotes and the newline are dropped. */
  function ParseEnv(s: string): (r: Option<(Entry, string)>)
    ensures !(ENV_FS_RO_NAME <= s) && !(ENV_FS_RW_NAME <= s) ==> r.None?
    ensures r.Some? ==>
      || s == PrintEntry(r.value.0, true) + r.value.1
      || (s == PrintEntry(r.value.0, false) + r.value.1 && !StartsWithNewline(r.value.1))
    ensures r.Some? ==> EntryWellFormed(r.value.0)
    ensures r.Some? ==> |r.value.1| < |s|
  {
    var (name, afterName) :- ParseEnvVarName(s);
    var afterEq :- Tag("=", afterName);
    var afterOpen :- Tag("\"", afterEq);
    var (paths, afterList) := ParsePathList(afterOpen).value;
    var afterClose :- Tag("\"", afterList);
    var newline := StartsWithNewline(afterClose);
    var rest := match Tag("\n", afterClose) case Some(r) => r case None => afterClose;
    assert newline ==> afterClose == "\n" + rest;
    EntryText(name, paths, newline, s, afterName, afterEq, afterOpen, afterList, afterClose, rest);
    Some(((name, paths), rest))
  }

  /** Reassembling the pieces `parse_env` read gives the printed entry. */
  lemma EntryText(name: EnvVar, paths: seq<Path>, newline: bool, s: string, afterName: string,
                  afterEq: string, afterOpen: string, afterList: string, afterClose: string, rest: string)
    requires s == VarName(name) + afterName
    requires afterName == "=" + afterEq
    requires afterEq == "\"" + afterOpen
    requires afterOpen == PrintPathList(paths) + afterList
    requires afterList == "\"" + afterClose
    requires afterClose == (if newline then "\n" else "") + rest
    ensures s == PrintEntry((name, paths), newline) + rest
    ensures |rest| < |s|
  {
    var n, pl, nl := VarName(name), PrintPathList(paths), if newline then "\n" else "";
    assert afterName == "=\"" + afterOpen by {
      Assoc("=", "\"", afterOpen);
    }
    Assoc5(n, "=\"", pl, "\"", nl, rest);
  }

  /** Regrouping a right-nested concatenation of six parts to the left. */
  lemma Assoc5(a: string, b: string, c: string, d: string, e: string, f: string)
    ensures a + (b + (c + (d + (e + f)))) == ((((a + b) + c) + d) + e) + f
  {
    calc {
      a + (b + (c + (d + (e + f))));
      { Assoc(d, e, f); }
      a + (b + (c + ((d + e) + f)));
      { Assoc(c, d + e, f); Assoc(c, d, e); }
      a + (b + (((c + d) + e) + f));
      { Assoc(b, (c + d) + e, f); Assoc(b, c + d, e); Assoc(b, c, d); }
      a + ((((b + c) + d) + e) + f);
      { Assoc(a, ((b + c) + d) + e, f); Assoc(a, (b + c) + d, e); Assoc(a, b + c, d); Assoc(a, b, c); }
      ((((a + b) + c) + d) + e) + f;
    }
  }

  lemma ParseEnvForward()
    ensures Forward(ParseEnv) && Progress(ParseEnv)
  {
  }

  /** The entries one after the other, each followed by a newline when its
      flag says so. */
  function PrintEntries(es: seq<Entry>, newlines: seq<bool>): string
  {
    if es == [] || newlines == [] then ""
    else PrintEntry(es[0], newlines[0]) + PrintEntries(es[1..], newlines[1..])
  }

  /** The canonical profile text: the entries printed one per line. */
  function PrintProfile(es: seq<Entry>): string
  {
    PrintEntries(es, seq(|es|, _ => true))
  }

  /** What `many0(parse_env)` reads is the returned entries printed one
      after the other, each with or without its newline. */
  lemma {:induction false} EntriesRead(s: string)
    ensures var r := Many0(ParseEnv, s);
      r.Some? ==> exists nls :: |nls| == |r.value.0| && s == PrintEntries(r.value.0, nls) + r.value.1
    decreases |s|
  {
    ParseEnvForward();
    var r := Many0(ParseEnv, s);
    if r.Some? {
      match ParseEnv(s)
      case None =>
        assert r.value == ([], s);
        assert s == PrintEntries([], []) + s;
      case Some((e, rest)) =>
        Many0Unstep(ParseEnv, s, e, rest);
        EntriesRead(rest);
        var (es, rest') := Many0(ParseEnv, rest).value;
        var tail :| |tail| == |es| && rest == PrintEntries(es, tail) + rest';
        var nl := EntryFlag(s, e, rest);
        EntriesCons(e, nl, es, tail, s, rest, rest');
    }
  }

  /** Whether the entry `parse_env` read ended with a newline. */
  lemma EntryFlag(s: string, e: Entry, rest: string) returns (nl: bool)
    requires ParseEnv(s) == Some((e, rest))
    ensures s == PrintEntry(e, nl) + rest
  {
    nl := s == PrintEntry(e, true) + rest;
  }

  lemma EntriesCons(e: Entry, nl: bool, es: seq<Entry>, tail: seq<bool>, s: string, rest: string, rest': string)
    requires s == PrintEntry(e, nl) + rest
    requires |tail| == |es| && rest == PrintEntries(es, tail) + rest'
    ensures |[nl] + tail| == |[e] + es|
    ensures s == PrintEntries([e] + es, [nl] + tail) + rest'
  {
    assert ([e] + es)[1..] == es && ([nl] + tail)[1..] == tail;
    Assoc(PrintEntry(e, nl), PrintEntries(es, tail), rest');
  }

  /** `parse_profile`: `all_consuming(many0(parse_env))` — as many entries
      as parse, and a failure unless they consume the whole input. */
  function ParseProfile(s: string): (r: Option<(seq<Entry>, string)>)
    ensures r.Some? ==> r.value.1 == []
    ensures r.Some? ==> forall i :: 0 <= i < |r.value.0| ==> EntryWellFormed(r.value.0[i])
    ensures r.Some? ==> exists nls :: |nls| == |r.value.0| && s == PrintEntries(r.value.0, nls)
    ensures s == [] ==> r == Some(([], []))
  {
    ParseEnvForward();
    Many0Valid(ParseEnv, EntryWellFormed, s);
    EntriesRead(s);
    // every entry reads at least `LL_FS_RO=""`, so `many0` cannot fail here
    var (entries, rest) := Many0(ParseEnv, s).value;
    if rest != [] then None else Some((entries, rest))
  }
}

=== FILE: profile_roundtrip.dfy ===
/** Print/parse round trips for the profile grammar of examples/profile.rs:
    printing well-formed values in the canonical text and parsing that text
    gives the values back, with the following input untouched. Together
    with the parsers' own contracts (what a parser reads is the printed
    form of what it returns) this pins each parser down from both sides. */
module ProfileRoundTrip {
  import opened Wrappers
  import opened Combinators
  import opened Profile
  import opened Seqs

  /** What may follow a path: not a further segment or `/`. */
  predicate PathEnd(rest: string)
  {
    rest == [] || (rest[0] != '/' && !IsAlnum(rest[0]))
  }

  /** What may follow a path list: not a further path or `:`. */
  predicate ListEnd(rest: string)
  {
    rest == [] || (rest[0] != '/' && rest[0] != ':' && !IsAlnum(rest[0]))
  }

  /** `filename` reads back exactly a name followed by a non-alphanumeric. */
  lemma FilenameRoundTrip(n: string, rest: string)
    requires IsName(n) && EndsName(rest)
    ensures Filename(n + rest) == Some((n, rest))
  {
    var s := n + rest;
    assert s[0] == n[0];
    var (m, rest') := Filename(s).value;
    // both are the longest alphanumeric prefix of s
    if |m| < |n| {
      assert false;
    }
    if |n| < |m| {
      ConcatAt(n, rest, |n|);
      ConcatAt(m, rest', |n|);
      assert false;
    }
    assert m == s[..|m|];
  }

  /** The segments after the first, each behind a `/`. */
  lemma {:induction false} SegmentsTailRoundTrip(segs: seq<string>, rest: string)
    requires forall i :: 0 <= i < |segs| ==> IsName(segs[i])
    requires PathEnd(rest)
    ensures SeparatedTail("/", Filename, JoinTail("/", segs) + rest) == Some((segs, rest))
    decreases |segs|
  {
    FilenameForward();
    var s := JoinTail("/", segs) + rest;
    if segs != [] {
      var tail := JoinTail("/", segs[1..]) + rest;
      SegmentsShape(segs, rest);
      TagCons("/", segs[0] + tail);
      SegmentsEnd(segs[1..], rest);
      FilenameRoundTrip(segs[0], tail);
      SegmentsTailRoundTrip(segs[1..], rest);
      SeparatedTailStep("/", Filename, s, segs[0] + tail, segs[0], tail, segs[1..], rest);
      assert [segs[0]] + segs[1..] == segs;
    } else {
      assert s == rest;
      NoTagBefore('/', rest);
    }
  }

  /** Printed segments, first segment split off. */
  lemma SegmentsShape(segs: seq<string>, rest: string)
    requires segs != []
    ensures JoinTail("/", segs) + rest == "/" + (segs[0] + (JoinTail("/", segs[1..]) + rest))
    ensures Join("/", segs) + rest == segs[0] + (JoinTail("/", segs[1..]) + rest)
  {
    var j := JoinTail("/", segs[1..]);
    assert JoinTail("/", segs) == ("/" + segs[0]) + j;
    Assoc("/" + segs[0], j, rest);
    Assoc("/", segs[0], j + rest);
    Assoc(segs[0], j, rest);
  }

  /** `filename` fails where a path ends. */
  lemma NoNameAt(rest: string)
    requires PathEnd(rest)
    ensures Filename(rest).None?
  {
  }

  /** `tag` of a character fails on input that does not start with it. */
  lemma NoTagBefore(c: char, s: string)
    requires s == [] || s[0] != c
    ensures Tag([c], s).None?
  {
    if s != [] {
      assert [c][0] != s[0];
    }
  }

  lemma FilenameForward()
    ensures Forward(Filename)
  {
  }

  /** Whatever follows a segment in printed text is not alphanumeric. */
  lemma SegmentsEnd(segs: seq<string>, rest: string)
    requires PathEnd(rest)
    ensures EndsName(JoinTail("/", segs) + rest)
  {
    if segs != [] {
      assert (JoinTail("/", segs) + rest)[0] == '/';
    }
  }

  /** `parse_path` reads back the printed form of a well-formed path. The
      root path prints as `/` alone. */
  lemma PathRoundTrip(p: Path, rest: string)
    requires WellFormed(p) && PathEnd(rest)
    ensures ParsePath(PrintPath(p) + rest) == Some((p, rest))
  {
    FilenameForward();
    var segs := p.segments;
    var afterSlash := Join("/", segs) + rest;
    Assoc("/", Join("/", segs), rest);
    TagCons("/", afterSlash);
    if segs != [] {
      var tail := JoinTail("/", segs[1..]) + rest;
      SegmentsShape(segs, rest);
      SegmentsEnd(segs[1..], rest);
      FilenameRoundTrip(segs[0], tail);
      SegmentsTailRoundTrip(segs[1..], rest);
      SeparatedListStep("/", Filename, afterSlash, segs[0], tail, segs[1..], rest);
      assert [segs[0]] + segs[1..] == segs;
    } else {
      NoNameAt(rest);
    }
    PrintIdentity(segs);
  }

  /** `/` alone is the root path, with no segment. */
  lemma RootPath()
    ensures ParsePath("/") == Some((Path([]), ""))
  {
    PathRoundTrip(Path([]), "");
    assert PrintPath(Path([])) + "" == "/";
  }

  lemma ParsePathForward()
    ensures Forward(ParsePath)
  {
  }

  /** Whatever follows a path in a printed list is a valid path end. */
  lemma PathsEnd(ps: seq<Path>, rest: string)
    requires ListEnd(rest)
    ensures PathEnd(JoinTail(":", Print(PrintPath, ps)) + rest)
  {
    if ps != [] {
      assert (JoinTail(":", Print(PrintPath, ps)) + rest)[0] == ':';
    }
  }

  lemma {:induction false} PathsTailRoundTrip(ps: seq<Path>, rest: string)
    requires forall i :: 0 <= i < |ps| ==> WellFormed(ps[i])
    requires ListEnd(rest)
    ensures SeparatedTail(":", ParsePath, JoinTail(":", Print(PrintPath, ps)) + rest) == Some((ps, rest))
    decreases |ps|
  {
    if ps != [] {
      PathsTailRoundTrip(ps[1..], rest);
      PathsTailCons(ps, rest);
    } else {
      ParsePathForward();
      assert JoinTail(":", Print(PrintPath, ps)) + rest == rest;
      NoTagBefore(':', rest);
    }
  }

  /** The step of `PathsTailRoundTrip`: one more path in front. */
  lemma PathsTailCons(ps: seq<Path>, rest: string)
    requires ps != [] && WellFormed(ps[0])
    requires ListEnd(rest)
    requires SeparatedTail(":", ParsePath, JoinTail(":", Print(PrintPath, ps[1..])) + rest) == Some((ps[1..], rest))
    ensures SeparatedTail(":", ParsePath, JoinTail(":", Print(PrintPath, ps)) + rest) == Some((ps, rest))
  {
    ParsePathForward();
    var s := JoinTail(":", Print(PrintPath, ps)) + rest;
    var tail := JoinTail(":", Print(PrintPath, ps[1..])) + rest;
    var afterSep := PrintPath(ps[0]) + tail;
    PathsShape(ps, rest);
    TagCons(":", afterSep);
    PathsEnd(ps[1..], rest);
    PathRoundTrip(ps[0], tail);
    SeparatedTailStep(":", ParsePath, s, afterSep, ps[0], tail, ps[1..], rest);
    assert [ps[0]] + ps[1..] == ps;
  }

  /** A printed list of paths, first path split off. */
  lemma PathsShape(ps: seq<Path>, rest: string)
    requires ps != []
    ensures JoinTail(":", Print(PrintPath, ps)) + rest
      == ":" + (PrintPath(ps[0]) + (JoinTail(":", Print(PrintPath, ps[1..])) + rest))
    ensures Join(":", Print(PrintPath, ps)) + rest
      == PrintPath(ps[0]) + (JoinTail(":", Print(PrintPath, ps[1..])) + rest)
  {
    var p, q := Print(PrintPath, ps), Print(PrintPath, ps[1..]);
    var a, j := PrintPath(ps[0]), JoinTail(":", q);
    assert p[0] == a && p[1..] == q;
    assert JoinTail(":", p) == (":" + a) + j;
    assert Join(":", p) == a + j;
    Assoc(":" + a, j, rest);
    Assoc(":", a, j + rest);
    Assoc(a, j, rest);
  }

  /** `parse_path_list` reads back the printed form of a list of
      well-formed paths, the empty list included. */
  lemma PathListRoundTrip(ps: seq<Path>, rest: string)
    requires forall i :: 0 <= i < |ps| ==> WellFormed(ps[i])
    requires ListEnd(rest)
    ensures ParsePathList(PrintPathList(ps) + rest) == Some((ps, rest))
  {
    ParsePathForward();
    var s := PrintPathList(ps) + rest;
    if ps != [] {
      var tail := JoinTail(":", Print(PrintPath, ps[1..])) + rest;
      assert ParsePath(s) == Some((ps[0], tail)) by {
        PathsShape(ps, rest);
        PathsEnd(ps[1..], rest);
        PathRoundTrip(ps[0], tail);
      }
      assert SeparatedTail(":", ParsePath, tail) == Some((ps[1..], rest)) by {
        PathsTailRoundTrip(ps[1..], rest);
      }
      SeparatedListStep(":", ParsePath, s, ps[0], tail, ps[1..], rest);
      assert [ps[0]] + ps[1..] == ps;
    } else {
      assert s == rest;
    }
  }

  /** A `/` that starts no segment is left unread after the last path. */
  lemma TrailingSlash()
    ensures ParsePathList("/a/") == Some(([Path(["a"])], "/"))
  {
    FilenameForward();
    ParsePathForward();
    assert IsName("a") && EndsName("/");
    FilenameRoundTrip("a", "/");
    assert "a" + "/" == "a/";
    NoNameAt("");
    assert SeparatedTail("/", Filename, "/") == Some(([], "/"));
    SeparatedListStep("/", Filename, "a/", "a", "/", [], "/");
    assert ["a"] + [] == ["a"];
    TagCons("/", "a/");
    assert "/" + "a/" == "/a/";
    assert ParsePath("/a/") == Some((Path(["a"]), "/"));
    NoTagBefore(':', "/");
    SeparatedListStep(":", ParsePath, "/a/", Path(["a"]), "/", [], "/");
    assert [Path(["a"])] + [] == [Path(["a"])];
  }

  /** `parse_env` reads back a printed entry, with or without its newline
      (without it, provided no newline follows). */
  lemma EntryRoundTrip(e: Entry, newline: bool, rest: string)
    requires EntryWellFormed(e)
    requires newline || !StartsWithNewline(rest)
    ensures ParseEnv(PrintEntry(e, newline) + rest) == Some((e, rest))
  {
    var (name, paths) := e;
    var afterClose := (if newline then "\n" else "") + rest;
    var afterList := "\"" + afterClose;
    var afterOpen := PrintPathList(paths) + afterList;
    var s := PrintEntry(e, newline) + rest;
    EntryShape(name, paths, newline, rest);
    EntryHead(s, name, afterOpen);
    PathListRoundTrip(paths, afterList);
    EntryTail(afterClose, newline, rest);
    ParseEnvSteps(s, name, "=\"" + afterOpen, "\"" + afterOpen, afterOpen, paths, afterList, afterClose, rest);
  }

  /** A printed entry, as `parse_env` takes it apart. */
  lemma EntryShape(name: EnvVar, paths: seq<Path>, newline: bool, rest: string)
    ensures PrintEntry((name, paths), newline) + rest
      == VarName(name) + ("=\"" + (PrintPathList(paths) + ("\"" + ((if newline then "\n" else "") + rest))))
  {
  }

  lemma EntryHead(s: string, name: EnvVar, afterOpen: string)
    requires s == VarName(name) + ("=\"" + afterOpen)
    ensures ParseEnvVarName(s) == Some((name, "=\"" + afterOpen))
    ensures Tag("=", "=\"" + afterOpen) == Some("\"" + afterOpen)
    ensures Tag("\"", "\"" + afterOpen) == Some(afterOpen)
  {
    assert VarName(name) <= s;
    assert s[|VarName(name)|..] == "=\"" + afterOpen;
    assert "=\"" + afterOpen == "=" + ("\"" + afterOpen);
  }

  lemma EntryTail(afterClose: string, newline: bool, rest: string)
    requires afterClose == (if newline then "\n" else "") + rest
    requires newline || !StartsWithNewline(rest)
    ensures Tag("\"", "\"" + afterClose) == Some(afterClose)
    ensures rest == match Tag("\n", afterClose) case Some(r) => r case None => afterClose
  {
    if newline {
      assert Tag("\n", afterClose) == Some(rest);
    } else {
      NoTagBefore('\n', afterClose);
    }
  }

  /** `parse_env` is the sequence of its steps. */
  lemma ParseEnvSteps(s: string, name: EnvVar, afterName: string, afterEq: string, afterOpen: string,
                      paths: seq<Path>, afterList: string, afterClose: string, rest: string)
    requires ParseEnvVarName(s) == Some((name, afterName))
    requires Tag("=", afterName) == Some(afterEq)
    requires Tag("\"", afterEq) == Some(afterOpen)
    requires ParsePathList(afterOpen) == Some((paths, afterList))
    requires Tag("\"", afterList) == Some(afterClose)
    requires rest == match Tag("\n", afterClose) case Some(r) => r case None => afterClose
    ensures ParseEnv(s) == Some(((name, paths), rest))
  {
  }

  /** `many0(parse_env)` reads back entries printed one after the other,
      each with or without its newline, stopping where `parse_env` fails. */
  lemma {:induction false} EntriesRoundTrip(es: seq<Entry>, newlines: seq<bool>, rest: string)
    requires forall i :: 0 <= i < |es| ==> EntryWellFormed(es[i])
    requires |newlines| == |es|
    requires ParseEnv(rest).None?
    requires es != [] && !newlines[|es| - 1] ==> !StartsWithNewline(rest)
    ensures Many0(ParseEnv, PrintEntries(es, newlines) + rest) == Some((es, rest))
    decreases |es|
  {
    ParseEnvForward();
    if es != [] {
      if |es| > 1 {
        EntriesStart(es[1..], newlines[1..], rest);
      }
      EntriesRoundTrip(es[1..], newlines[1..], rest);
      EntriesStep(es, newlines, rest);
    } else {
      assert PrintEntries(es, newlines) + rest == rest;
    }
  }

  /** The step of `EntriesRoundTrip`: one more entry in front. */
  lemma EntriesStep(es: seq<Entry>, newlines: seq<bool>, rest: string)
    requires es != [] && EntryWellFormed(es[0]) && |newlines| == |es|
    requires newlines[0] || !StartsWithNewline(PrintEntries(es[1..], newlines[1..]) + rest)
    requires Many0(ParseEnv, PrintEntries(es[1..], newlines[1..]) + rest) == Some((es[1..], rest))
    ensures Many0(ParseEnv, PrintEntries(es, newlines) + rest) == Some((es, rest))
  {
    ParseEnvForward();
    var tail := PrintEntries(es[1..], newlines[1..]) + rest;
    EntriesShape(es, newlines, rest);
    EntryRoundTrip(es[0], newlines[0], tail);
    Many0Step(ParseEnv, PrintEntries(es, newlines) + rest, es[0], tail, es[1..], rest);
    assert [es[0]] + es[1..] == es;
  }

  /** Printed entries, first entry split off. */
  lemma EntriesShape(es: seq<Entry>, newlines: seq<bool>, rest: string)
    requires es != [] && |newlines| == |es|
    ensures PrintEntries(es, newlines) + rest
      == PrintEntry(es[0], newlines[0]) + (PrintEntries(es[1..], newlines[1..]) + rest)
  {
    Assoc(PrintEntry(es[0], newlines[0]), PrintEntries(es[1..], newlines[1..]), rest);
  }

  /** Printed entries start with a variable name, so never with a newline. */
  lemma EntriesStart(es: seq<Entry>, newlines: seq<bool>, rest: string)
    requires es != [] && |newlines| == |es|
    ensures !StartsWithNewline(PrintEntries(es, newlines) + rest)
  {
    assert VarName(es[0].0)[0] == 'L';
    assert (PrintEntries(es, newlines) + rest)[0] == VarName(es[0].0)[0];
  }

  /** `parse_profile` reads back entries printed one after the other, each
      with or without its newline: a last line without a newline and entries
      written back to back are accepted too. */
  lemma ProfileTextRoundTrip(es: seq<Entry>, newlines: seq<bool>)
    requires forall i :: 0 <= i < |es| ==> EntryWellFormed(es[i])
    requires |newlines| == |es|
    ensures ParseProfile(PrintEntries(es, newlines)) == Some((es, []))
  {
    ParseEnvForward();
    assert ParseEnv([]).None?;
    EntriesRoundTrip(es, newlines, []);
    assert PrintEntries(es, newlines) + [] == PrintEntries(es, newlines);
  }

  /** `parse_profile` reads back a printed profile: one `NAME="..."` line
      per entry, in order, consuming everything. */
  lemma ProfileRoundTrip(es: seq<Entry>)
    requires forall i :: 0 <= i < |es| ==> EntryWellFormed(es[i])
    ensures ParseProfile(PrintProfile(es)) == Some((es, []))
  {
    ProfileTextRoundTrip(es, seq(|es|, _ => true));
  }

  /** `s` is the well-formed entries `es` printed one after the other, with
      a newline after each entry whose flag in `nls` is set. */
  predicate ProfileText(s: string, es: seq<Entry>, nls: seq<bool>)
  {
    && (forall i :: 0 <= i < |es| ==> EntryWellFormed(es[i]))
    && |nls| == |es|
    && s == PrintEntries(es, nls)
  }

  /** `parse_profile` accepts exactly the texts made of well-formed entries
      printed one after the other, each with or without its newline. */
  lemma ParseProfileAccepts(s: string)
    ensures ParseProfile(s).Some? <==> exists es, nls :: ProfileText(s, es, nls)
  {
    if ParseProfile(s).Some? {
      var es := ParseProfile(s).value.0;
      var nls :| |nls| == |es| && s == PrintEntries(es, nls);
      assert ProfileText(s, es, nls);
    }
    if exists es, nls :: ProfileText(s, es, nls) {
      var es, nls :| ProfileText(s, es, nls);
      ProfileTextRoundTrip(es, nls);
    }
  }

  /** A one-line profile whose line has no newline. */
  lemma LastLineWithoutNewline()
    ensures ParseProfile("LL_FS_RO=\"/a\"") == Some(([(RO, [Path(["a"])])], []))
  {
    var e: Entry := (RO, [Path(["a"])]);
    assert IsName("a");
    assert PrintPath(Path(["a"])) == "/a";
    assert PrintPathList([Path(["a"])]) == "/a";
    assert PrintEntries([e], [false]) == "LL_FS_RO=\"/a\"";
    ProfileTextRoundTrip([e], [false]);
  }
}

=== FILE: seqs.dfy ===
/** Small facts about sequence concatenation, stated once and called where
    the solver would otherwise have to find them itself. */
module Seqs {

  lemma Assoc<T>(a: seq<T>, b: seq<T>, c: seq<T>)
    ensures a + (b + c) == (a + b) + c
  {
  }

  /** Indexing into a concatenation. */
  lemma ConcatAt<T>(a: seq<T>, b: seq<T>, k: int)
    ensures 0 <= k < |a| ==> (a + b)[k] == a[k]
    ensures |a| <= k < |a| + |b| ==> (a + b)[k] == b[k - |a|]
  {
  }
}

=== FILE: syscalls.dfy ===
/** The kernel boundary below src/lib.rs: the three Landlock system calls,
    `prctl` and `close`. Nothing about what the kernel enforces is modelled;
    every call's return value (and the `errno` read right after it) comes
    from an arbitrary oracle. A kernel record keeps the descriptors handed
    out by ruleset creation and a log of every call issued. */
module Syscalls {
  import opened AccessFs

  /** A raw file descriptor (`RawFd`). */
  type Fd = int

  /** `PR_SET_NO_NEW_PRIVS`, from include/uapi/linux/prctl.h. */
  const PR_SET_NO_NEW_PRIVS: int := 38

  /** `std::io::Error` as built by `Error::last_os_error()`: the platform
      error code, passed through untranslated. */
  datatype Error = OsError(errno: int)

  /** The rule-type tag of `landlock_add_rule`; Landlock defines only
      `LANDLOCK_RULE_PATH_BENEATH`. */
  datatype RuleType = PathBeneathType

  /** `struct landlock_path_beneath_attr`: the allowed mask and the raw
      descriptor of the subtree root. */
  datatype PathBeneathAttr = PathBeneathAttr(allowedAccess: bv64, parentFd: Fd)

  /** One call across the boundary, with the arguments it was given. */
  datatype Call =
    | CreateRuleset(handledAccessFs: bv64, flags: int)
    | AddRule(rulesetFd: Fd, ruleType: RuleType, attr: PathBeneathAttr, flags: int)
    | RestrictSelf(rulesetFd: Fd, flags: int)
    | Prctl(option: int, arg2: int, arg3: int, arg4: int, arg5: int)
    | Close(fd: Fd)

  /** What a call returned, and the `errno` value left behind. */
  datatype Reply = Reply(ret: int, errno: int)

  /** The kernel's answer to a call, given every call issued before it:
      an arbitrary function, so nothing is assumed about the kernel. */
  type Oracle = (seq<Call>, Call) -> Reply

  /** The kernel-side record: descriptors created and not yet closed, and
      the calls issued so far, oldest first. */
  datatype Kernel = Kernel(open: multiset<Fd>, log: seq<Call>)

  /** Issue `c`: log it, take the oracle's reply, and keep the descriptor
      table up to date (a successful creation opens its result, a close
      releases its argument). */
  function Issue(k: Kernel, c: Call, oracle: Oracle): (r: (Reply, Kernel))
    ensures r.0 == oracle(k.log, c)
    ensures r.1.log == k.log + [c]
    ensures c.CreateRuleset? && r.0.ret >= 0 ==> r.1.open == k.open + multiset{r.0.ret}
    ensures c.Close? ==> r.1.open == k.open - multiset{c.fd}
    ensures !c.Close? && !(c.CreateRuleset? && r.0.ret >= 0) ==> r.1.open == k.open
  {
    var reply := oracle(k.log, c);
    var open :=
      if c.CreateRuleset? && reply.ret >= 0 then k.open + multiset{reply.ret}
      else if c.Close? then k.open - multiset{c.fd}
      else k.open;
    (reply, Kernel(open, k.log + [c]))
  }

  /** The descriptors closed in a log, in order. */
  function Closes(log: seq<Call>): (fds: seq<Fd>)
    ensures |fds| <= |log|
  {
    if log == [] then []
    else (if log[0].Close? then [log[0].fd] else []) + Closes(log[1..])
  }

  lemma {:induction false} ClosesAppend(a: seq<Call>, b: seq<Call>)
    ensures Closes(a + b) == Closes(a) + Closes(b)
    decreases |a|
  {
    if a == [] {
      assert a + b == b;
    } else {
      var ab := a + b;
      assert ab[0] == a[0];
      assert ab[1..] == a[1..] + b;
      ClosesAppend(a[1..], b);
      var head: seq<Fd> := if a[0].Close? then [a[0].fd] else [];
      calc {
        Closes(ab);
        head + Closes(a[1..] + b);
        head + (Closes(a[1..]) + Closes(b));
        (head + Closes(a[1..])) + Closes(b);
        Closes(a) + Closes(b);
      }
    }
  }
}

=== FILE: wrappers.dfy ===
/** Failure-carrying return types shared by the ruleset protocol and the
    profile parsers. */
module Wrappers {

  /** A parser either fails (`None`) or yields a value and the unread input.
      Usable with `:-`, which passes a failure straight on. */
  datatype Option<+T> = None | Some(value: T) {

    predicate IsFailure()
    {
      None?
    }

    function PropagateFailure<U>(): Option<U>
      requires None?
    {
      None
    }

    function Extract(): T
      requires Some?
    {
      value
    }
  }

  /** Rust's `Result<T, E>`: `Ok` carries the value, `Err` the error. */
  datatype Result<+T, +E> = Ok(value: T) | Err(error: E)
}
